=== FILE: README.md ===
# learn-sicilian: first-run catalog seeding and settings preferences

This project models the two pieces of logic in the learn-sicilian flashcard app.

**Catalog seeding (`initDb`, `lib/db.ts`).** `initDb` creates the `meta`, `cards` and `progress`
tables if they are missing. It then looks up the key `seeded_v1` in `meta`. If the key is absent,
it loads the seed asset and, inside one BEGIN/COMMIT, inserts every seed record into `cards`
followed by the marker `seeded_v1 = '1'`. Any exception in that block leads to a ROLLBACK and, if the
ROLLBACK itself succeeds, a log line.

The model (`catalog_store.dfy`, module `CatalogStore`) makes the database an immutable value:
- `Db` holds the set of tables, the `meta` and `cards` rows as maps, and the open transaction.
- The open transaction is `tx: Option<Snapshot>`. `InTransaction()` is the in-transaction flag.
  BEGIN stores the snapshot that ROLLBACK restores.
- Every SQL statement is a pure function. BEGIN, COMMIT, ROLLBACK and the two INSERTs can fail
  and return `Result<Db, Failure>`. The three CREATE TABLEs (`CreateSchema`) cannot fail here and
  return `Db`. The marker SELECT is the test `SeedMarkerKey in meta`.
- A failed statement changes nothing. Earlier statements in an open transaction remain until
  ROLLBACK.
- `Run` pairs a state with the error that interrupted it. `InitDb(db, seed)` returns the final
  state and the error `initDb`'s promise rejects with, if there is one.

**Settings (`app/settings.tsx`).** The screen keeps three preferences: reminder on/off, reminder
hour and dark theme. Each lives in component state and, as a string, in the device's key-value
storage. The model (`settings.dfy`, module `Settings`) makes storage a `map<string, string>` held
beside the state (`Screen`). Every handler is a pure function over `Screen`:
- `changeHour` steps the hour with JavaScript's truncating `%`.
- `toggleNotify` and `toggleTheme` store `'1'` or `'0'`.
- The mount effect decodes all three values (`Load`, `Hydrate`).

`js_text.dfy` (module `JsText`) models the two JavaScript conversions involved: `String(n)` for
integers, and `Number(s)` for the strings the screen can read back. `wrappers.dfy` holds `Option`
and `Result`.

The quiz and vocabulary screens are placeholders and nothing reads or writes `progress`, so the
model covers only seeding and settings. When `initDb` is called outside a transaction and a seed
insert fails, the rollback restores whatever `cards` and `meta` held before the call. If the asset
fails to load, ROLLBACK itself fails and its error escapes. If `initDb` is called inside a
transaction, the rollback goes back to the state at that transaction's BEGIN.

## Model

| member | source | states |
|---|---|---|
| CatalogStore.CreateSchema | lib/db.ts:5-27 | `CREATE TABLE IF NOT EXISTS` adds the three tables and leaves every `meta` and `cards` row and the open transaction as they were |
| CatalogStore.CreateSchemaIdempotent | lib/db.ts:5-27 | creating the schema a second time changes nothing |
| CatalogStore.Begin | lib/db.ts:39 | BEGIN succeeds exactly when no transaction is open; it opens one that records the current tables, `meta` and `cards` as its rollback point and changes no row; otherwise it fails as a nested transaction |
| CatalogStore.Commit | lib/db.ts:50 | COMMIT succeeds exactly when a transaction is open, closes it and keeps the rows written in it |
| CatalogStore.Rollback | lib/db.ts:52 | ROLLBACK succeeds exactly when a transaction is open and puts back the tables, `meta` and `cards` rows it started from; with none open it fails with "no active transaction" |
| CatalogStore.ToCard | lib/db.ts:42-43 | the row written for a record keeps its id, word and meaning; `is_premium` is 1 for a truthy JSON value and 0 for any other value |
| CatalogStore.InsertCard | lib/db.ts:11-16 | a card insert succeeds exactly when word and meaning are present (NOT NULL) and the id is new (PRIMARY KEY); it adds one row and keeps all others |
| CatalogStore.InsertMeta | lib/db.ts:7-10 | a `meta` insert succeeds exactly when the key is new (PRIMARY KEY), adds that one entry and keeps all others |
| CatalogStore.InsertAll | lib/db.ts:40-45 | the seed loop completes exactly when the records are insertable: each is complete, no id repeats, no id is already stored; it then adds exactly the seed rows; on failure it only ever added rows |
| CatalogStore.SeedCardsKeys | lib/db.ts:40-45 | an insertable seed contributes one `cards` key per record: its keys are the record ids and their number is the number of records |
| CatalogStore.SeedCardsValues | lib/db.ts:41-44 | each record's row carries that record's id, word, meaning and normalised premium flag |
| CatalogStore.SeedAttempt | lib/db.ts:36-50 | the try block completes exactly when the asset loads, no transaction is open, the marker is absent and the seed is insertable; it then commits the seed rows plus the marker; any failure after BEGIN leaves the transaction open on the pre-call snapshot |
| CatalogStore.Recover | lib/db.ts:51-54 | the catch rolls an open transaction back to its snapshot and swallows the error; with no transaction open, ROLLBACK's own error escapes |
| CatalogStore.Truthy | lib/db.ts:43 | the JSON values `row.is_premium ? 1 : 0` treats as false are exactly `false`, `0`, `""`, `null` and `undefined` |
| CatalogStore.RecoverGuarded | lib/db.ts:51-54 | the corrected catch never throws; with a transaction open it restores that transaction's snapshot, otherwise it leaves the state as it is |
| CatalogStore.InitDbGuarded | lib/db.ts:4-56 | corrected `initDb` never rejects; called outside a transaction it leaves the schema in place and no transaction open, and a load failure changes no row |
| CatalogStore.InitDb | lib/db.ts:4-56 | called outside a transaction, `initDb` leaves all three tables and no open transaction; called inside one with the marker absent, its catch rolls that transaction back, tables included, to the outer snapshot |
| CatalogStore.InitDbInsideTransactionUndoesSchema | lib/db.ts:5-27 | concretely: on an empty database inside an open transaction, `initDb` ends with no tables and no transaction |
| CatalogStore.InitDbSkipsWhenSeeded | lib/db.ts:30-35 | with `seeded_v1` present, `initDb` changes no `meta` or `cards` row and completes normally |
| CatalogStore.InitDbSeedsCatalog | lib/db.ts:39-50 | a first run with an insertable seed adds one `cards` row per record (same id, word, meaning), keeps the old rows, sets `meta['seeded_v1'] = '1'` and commits |
| CatalogStore.InitDbRollsBackOnFailure | lib/db.ts:39-54 | when a seed insert fails, `meta` and `cards` end exactly as before the call, the marker stays absent so the next call retries, and `initDb` completes normally |
| CatalogStore.RepeatedSeedIdRollsBack | lib/db.ts:12 | a seed that repeats an id leaves `meta` and `cards` untouched |
| CatalogStore.ExistingSeedIdRollsBack | lib/db.ts:12 | a seed id already present in `cards` leaves `meta` and `cards` untouched |
| CatalogStore.InitDbLoadFailureEscapes | lib/db.ts:36-54 | if loading the asset throws, ROLLBACK runs with no transaction open and its error escapes `initDb`; no row changes |
| CatalogStore.InitDbGuardedSwallowsFailures | lib/db.ts:51-54 | with ROLLBACK issued only inside an open transaction, no seeding failure escapes, and the database state is the same as with the code as written |
| CatalogStore.InitDbIdempotent | lib/db.ts:30-50 | outside a transaction, running `initDb` again on its own result gives the same state and outcome |
| CatalogStore.InitDbKeepsMarkerSound | lib/db.ts:40-50 | if a present marker means every seed record is stored before the call, the same holds after it |
| CatalogStore.InitDbKeepsCardsWellFormed | lib/db.ts:15 | if every `cards` row sits under its own id with `is_premium` 0 or 1 before the call, the same holds after it |
| JsText.NatToString | app/settings.tsx:58 | `String(n)` of a natural number is a non-empty string of decimal digits whose value is `n`, with no leading zero: it starts with `0` exactly when `n` is 0, and then it is just `0` |
| JsText.IntToString | app/settings.tsx:58 | `String(n)` is a non-empty digit string for a non-negative `n`, and a minus sign followed by digits for a negative one; in both cases the digits have no leading zero |
| JsText.NumberOf | app/settings.tsx:38 | `Number("")` is 0; a negative result comes only from a leading minus sign; any other non-digit character gives NaN |
| JsText.NumberOfNullable | app/settings.tsx:38 | `Number(null)` (a missing key) is 0; a stored string is read by `Number` |
| JsText.IntToStringRoundTrip | app/settings.tsx:38 | `Number(String(n))` is `n` for every integer |
| Settings.JsRem | app/settings.tsx:56 | JavaScript `%` with a positive divisor: its magnitude is below the divisor, it equals the mathematical remainder for a non-negative dividend and is never positive for a negative one |
| Settings.JsRemOdd | app/settings.tsx:56 | negating the dividend negates the remainder, so with the non-negative case the remainder of JavaScript `%` is fixed for every dividend (`-7 % 24` is `-7`) |
| Settings.NextHour | app/settings.tsx:56 | `(hour + delta + 24) % 24`: whenever the sum is not negative, the result is the hour of the day congruent to `hour + delta`; otherwise it lies in -23..0; in every case it differs from `hour + delta` by a multiple of 24 |
| Settings.NextHourWraps | app/settings.tsx:56 | "+" at 23 gives 0 and "-" at 0 gives 23 |
| Settings.NextHourStepsCancel | app/settings.tsx:93-95 | for every hour 0..23, "+" then "-" and "-" then "+" both return the original hour |
| Settings.EncodeFlag | app/settings.tsx:46 | a switch is stored as `'1'` or `'0'`, and the stored string reads back as the switch's value |
| Settings.DecodeFlag | app/settings.tsx:37 | a missing key or `'0'` reads as off; only the string `'1'` reads as on |
| Settings.FlagCodec | app/settings.tsx:37-39 | a switch stored as `'1'`/`'0'` reads back as written; a missing key or any other string reads as off |
| Settings.DecodeHour | app/settings.tsx:38 | the hour read back is never 0; a missing key gives 9 |
| Settings.Load | app/settings.tsx:37-39 | the loaded hour is never 0; each missing key gives its default: reminders off, 9:00, light theme |
| Settings.Hydrate | app/settings.tsx:35-42 | the mount effect keeps storage as it is and leaves a screen that a reload would reproduce |
| Settings.FreshInstallLoadsDefaults | app/settings.tsx:30-42 | with nothing stored, loading leaves the initial state: reminders off, 9:00, light theme |
| Settings.ToggleNotify | app/settings.tsx:44-46 | the reminder switch takes the new value in state, and storage holds `'1'` or `'0'` for it under `notifyOn`, which reads back as that value; no key is added but `notifyOn` and no other key changes |
| Settings.ToggleTheme | app/settings.tsx:75-78 | the theme switch takes the new value in state, and storage holds `'1'` or `'0'` for it under `themeDark`, which reads back as that value; no key is added but `themeDark` and no other key changes |
| Settings.ChangeHour | app/settings.tsx:55-58 | the state gets the next hour and storage holds `String(next)` under `notifyHour`, which parses back to that hour; no key is added but `notifyHour`, and the switches and the other keys do not change |
| Settings.HourRoundTrip | app/settings.tsx:38 | a stored hour other than 0 reads back as itself, so every hour 1..23 survives a reload |
| Settings.MidnightReloadsAsNine | app/settings.tsx:38 | a stored hour 0 reads back as 9 |
| Settings.TogglesKeepInSync | app/settings.tsx:44-78 | if a reload would show the current screen, it still would after either switch changes |
| Settings.ChangeHourInSyncIff | app/settings.tsx:55-58 | from a screen a reload would reproduce, `changeHour` keeps that true exactly when the new hour is not 0 |
| Settings.MidnightStepLosesHour | app/settings.tsx:38 | at 23:00, "+" shows 0:00 but a reload shows 9:00 |
| Settings.DecodeHourCorrected | app/settings.tsx:38 | the corrected read-back gives 9 for a missing key |
| Settings.HourRoundTripCorrected | app/settings.tsx:38 | with the corrected read-back, every stored hour, 0 included, reads back as itself |
| Settings.FreshInstallLoadsDefaultsCorrected | app/settings.tsx:30-39 | with the corrected read-back, an empty store still loads the initial state |
| Settings.OperationsKeepInSyncCorrected | app/settings.tsx:44-78 | with the corrected read-back, no handler makes the screen differ from what a reload would show |

## Left out

- `PRAGMA journal_mode = WAL` (lib/db.ts:6) and the `await` sequencing: journaling and asynchrony do not change the state a call leaves.
- The `progress` table (lib/db.ts:17-26): only its creation is modelled. Nothing reads or writes it, and its `ease REAL` column is floating point.
- The column default `is_premium DEFAULT 0` (lib/db.ts:15) never applies, because the insert always supplies the value. The 0/1 invariant is proved for the supplied values.
- Storage failures: disk errors, a busy database, or a failure of schema creation or COMMIT for a reason other than "no transaction". COMMIT and ROLLBACK fail only when no transaction is open.
- SQLite type affinity: a seed `id` is an integer. A NULL id that SQLite would turn into a fresh rowid, and non-integer ids, are not modelled.
- The contents of the seed asset: the seed is any sequence of records. A failure to load it is the `None` case.
- `PRAGMA journal_mode = WAL` inside an open transaction: on a database not yet in WAL mode, SQLite refuses to switch journal mode there, and `initDb` would reject before any table is created. The model treats the PRAGMA as always succeeding, so a call made inside a transaction is modelled from the CREATE TABLEs on.
- Catalog listing, premium filtering, learned-progress toggling, quiz generation and scoring: none is implemented in the code.
- JsText.NatToString: numbers are modelled as unbounded integers. JavaScript numbers are doubles, so `String(n)` is a plain digit string only below 10^21, and `Number(s)` is exact only below 2^53. The app stores only hours 0..23, where the model is exact.
- Settings.DecodeHour: `Number()` is modelled only for the empty string, digit strings and a minus sign followed by digits. Every other string reads as NaN, and so as 9. JavaScript would accept whitespace, `+`, decimals, exponents, hex and `Infinity`. The app writes only integers, which the model covers exactly.
- The catch's `console.log('Seeding failed:', e)` (lib/db.ts:53): logging is output only and changes no state. The model records only whether the catch is reached without a further error, i.e. whether `InitDb` returns with no error after a failure.
- The storage I/O itself (AsyncStorage), the commented-out notification scheduling, Alerts and styles. Storage is a map beside the state.
- `onRestore` (app/settings.tsx:62-73) and its `busy` flag: with the restore call commented out, it only shows an Alert.
- The race between the mount-time load and a button pressed before it finishes: it needs an async interleaving model.
- The component nesting in app/settings.tsx (`toggleNotify` at 44-53 is never closed and the file ends with `})};`): the handlers are modelled as standalone functions.
- app/ai-chat.tsx (a network chat client), store/useEntitlement.ts (a wrapper over a purchases SDK that is not part of this model), and the navigation and placeholder screens.

## Findings

| source | as written | input that shows it | evidently intended | confidence | as-written member | corrected member |
|---|---|---|---|---|---|---|
| app/settings.tsx:38 | the hour is read back as `Number(value)`, with a fallback to 9 whenever that is falsy, and 0 is falsy | at 23:00 press "+": 0:00 is shown and "0" is stored; reopening the screen shows 9:00 | fall back to 9 only when the key is missing or not a number | high; not executed | Settings.MidnightStepLosesHour | Settings.OperationsKeepInSyncCorrected |
| lib/db.ts:52 | the catch issues ROLLBACK unconditionally | the seed asset fails to load at line 37, before BEGIN: ROLLBACK finds no open transaction, SQLite raises an error, and it escapes `initDb` although the catch is meant to log and continue | roll back only when a transaction is open, then log | low (a bundled asset rarely fails to load); not executed | CatalogStore.InitDbLoadFailureEscapes | CatalogStore.InitDbGuardedSwallowsFailures |

=== FILE: catalog_store.dfy ===
/** First-run set-up of the vocabulary database (`initDb`): create the schema, look for the
    seed marker, and if it is absent insert the seed catalog and the marker inside one
    BEGIN/COMMIT, rolling back when any statement fails.

    The database is an immutable value. `meta` and `cards` are the rows of the two tables
    `initDb` touches; `tx` is the open transaction, holding the snapshot a ROLLBACK restores.
    SQLite's schema changes are transactional too, so the snapshot includes the set of tables.
    A statement that fails changes nothing (SQLite undoes a failed statement on its own), but
    the statements before it in an open transaction stay until ROLLBACK. */
module CatalogStore {
  import opened Wrappers

  /** The tables the schema declares. */
  datatype Table = MetaTable | CardsTable | ProgressTable

  const Schema: set<Table> := {MetaTable, CardsTable, ProgressTable}

  /** The `meta` key whose presence records that seeding has happened, and the value stored under it. */
  const SeedMarkerKey: string := "seeded_v1"
  const SeedMarkerValue: string := "1"

  /** The `is_premium` field of a seed record as JavaScript sees it (the asset is untyped JSON). */
  datatype JsValue = Undefined | Null | Bool(b: bool) | Number(n: int) | Str(s: string) | Object

  /** JavaScript truthiness: exactly `false`, `0`, `""`, `null` and `undefined` are falsy. */
  function Truthy(v: JsValue): (t: bool)
    ensures !t <==> v == Undefined || v == Null || v == Bool(false) || v == Number(0) || v == Str("")
  {
    match v
    case Undefined => false
    case Null => false
    case Bool(b) => b
    case Number(n) => n != 0
    case Str(s) => s != ""
    case Object => true
  }

  /** One record of the seed asset. A missing `word` or `meaning_ja` is bound as NULL. */
  datatype SeedRow = SeedRow(id: int, word: Option<string>, meaningJa: Option<string>, isPremium: JsValue)

  /** One row of `cards`. */
  datatype Card = Card(id: int, word: string, meaningJa: string, isPremium: int)

  /** What BEGIN remembers and ROLLBACK puts back. */
  datatype Snapshot = Snapshot(tables: set<Table>, meta: map<string, string>, cards: map<int, Card>)

  datatype Db = Db(tables: set<Table>, meta: map<string, string>, cards: map<int, Card>, tx: Option<Snapshot>)
  {
    predicate InTransaction() {
      tx.Some?
    }
  }

  datatype Failure =
    | NotNullViolation       // `word` or `meaning_ja` is NULL
    | PrimaryKeyViolation    // the key is already in the table
    | NestedTransaction      // BEGIN while a transaction is open
    | NoActiveTransaction    // COMMIT or ROLLBACK with no transaction open
    | SeedUnavailable        // loading the seed asset threw

  /** The state after a sequence of statements, and the error that interrupted it, if any. */
  datatype Run = Run(db: Db, thrown: Option<Failure>)

  /** `CREATE TABLE IF NOT EXISTS` for the three tables: missing tables appear, no row changes. */
  function CreateSchema(db: Db): (r: Db)
    ensures r.tables == db.tables + Schema
    ensures r.meta == db.meta && r.cards == db.cards && r.tx == db.tx
  {
    db.(tables := db.tables + Schema)
  }

  function Begin(db: Db): (r: Result<Db, Failure>)
    ensures r.Ok? <==> !db.InTransaction()
    ensures r.Ok? ==> r.value.InTransaction() && r.value.tables == db.tables
                      && r.value.meta == db.meta && r.value.cards == db.cards
    ensures r.Ok? ==> r.value.tx == Some(Snapshot(db.tables, db.meta, db.cards))
    ensures r.Err? ==> r.error == NestedTransaction
  {
    if db.InTransaction() then Err(NestedTransaction)
    else Ok(db.(tx := Some(Snapshot(db.tables, db.meta, db.cards))))
  }

  function Commit(db: Db): (r: Result<Db, Failure>)
    ensures r.Ok? <==> db.InTransaction()
    ensures r.Ok? ==> !r.value.InTransaction() && r.value.tables == db.tables
                      && r.value.meta == db.meta && r.value.cards == db.cards
    ensures r.Err? ==> r.error == NoActiveTransaction
  {
    if db.InTransaction() then Ok(db.(tx := None)) else Err(NoActiveTransaction)
  }

  function Rollback(db: Db): (r: Result<Db, Failure>)
    ensures r.Ok? <==> db.InTransaction()
    ensures r.Ok? ==> !r.value.InTransaction() && r.value.tables == db.tx.value.tables
                      && r.value.meta == db.tx.value.meta && r.value.cards == db.tx.value.cards
    ensures r.Err? ==> r.error == NoActiveTransaction
  {
    match db.tx
    case None => Err(NoActiveTransaction)
    case Some(snap) => Ok(Db(snap.tables, snap.meta, snap.cards, None))
  }

  /** A record every NOT NULL column of `cards` can be filled from. */
  predicate Complete(row: SeedRow) {
    row.word.Some? && row.meaningJa.Some?
  }

  /** The `cards` row written for a complete seed record; `is_premium` is normalised to 0 or 1. */
  function ToCard(row: SeedRow): (c: Card)
    requires Complete(row)
    ensures c.id == row.id && c.word == row.word.value && c.meaningJa == row.meaningJa.value
    ensures c.isPremium == 0 || c.isPremium == 1
    ensures c.isPremium == 1 <==> Truthy(row.isPremium)
  {
    Card(row.id, row.word.value, row.meaningJa.value, if Truthy(row.isPremium) then 1 else 0)
  }

  /** `INSERT INTO cards(id, word, meaning_ja, is_premium) VALUES(...)` for one seed record. */
  function InsertCard(db: Db, row: SeedRow): (r: Result<Db, Failure>)
    ensures r.Ok? <==> Complete(row) && row.id !in db.cards
    ensures r.Ok? ==> && r.value.cards.Keys == db.cards.Keys + {row.id}
                      && r.value.cards[row.id] == ToCard(row)
                      && (forall k | k in db.cards :: r.value.cards[k] == db.cards[k])
                      && r.value.tables == db.tables && r.value.meta == db.meta && r.value.tx == db.tx
  {
    if !Complete(row) then Err(NotNullViolation)
    else if row.id in db.cards then Err(PrimaryKeyViolation)
    else Ok(db.(cards := db.cards[row.id := ToCard(row)]))
  }

  /** `INSERT INTO meta(key, value) VALUES(...)`. */
  function InsertMeta(db: Db, key: string, value: string): (r: Result<Db, Failure>)
    ensures r.Ok? <==> key !in db.meta
    ensures r.Ok? ==> && r.value.meta.Keys == db.meta.Keys + {key} && r.value.meta[key] == value
                      && (forall k | k in db.meta :: r.value.meta[k] == db.meta[k])
                      && r.value.tables == db.tables && r.value.cards == db.cards && r.value.tx == db.tx
    ensures r.Err? ==> r.error == PrimaryKeyViolation
  {
    if key in db.meta then Err(PrimaryKeyViolation) else Ok(db.(meta := db.meta[key := value]))
  }

  /** Every record can be inserted, in order, on top of rows with the keys `existing`:
      each is complete, none collides with an existing key, and no two share an id. */
  predicate Insertable(existing: set<int>, rows: seq<SeedRow>) {
    && (forall i | 0 <= i < |rows| :: Complete(rows[i]) && rows[i].id !in existing)
    && (forall i, j | 0 <= i < j < |rows| :: rows[i].id != rows[j].id)
  }

  /** The rows a seed contributes to `cards`, keyed by id. */
  function SeedCards(rows: seq<SeedRow>): map<int, Card>
    requires forall i | 0 <= i < |rows| :: Complete(rows[i])
  {
    if |rows| == 0 then map[] else map[rows[0].id := ToCard(rows[0])] + SeedCards(rows[1..])
  }

  /** Insertability of a non-empty seed, one record at a time. */
  lemma InsertableStep(existing: set<int>, rows: seq<SeedRow>)
    requires |rows| > 0
    ensures Insertable(existing, rows) <==>
              Complete(rows[0]) && rows[0].id !in existing && Insertable(existing + {rows[0].id}, rows[1..])
  {
  }

  /** Inserting one row and then a batch is inserting the row-then-batch map. */
  lemma UpdateThenUnion<K, V>(m: map<K, V>, k: K, v: V, rest: map<K, V>)
    ensures m[k := v] + rest == m + (map[k := v] + rest)
  {
  }

  /** Adding a fresh key grows a map by one entry. */
  lemma SingletonUnion<K, V>(k: K, v: V, m: map<K, V>)
    requires k !in m
    ensures map[k := v] + m == m[k := v]
    ensures |m[k := v]| == |m| + 1
  {
  }

  /** The seed loop (`for (const row of seed) INSERT ...`): insert the records in order and stop at
      the first failing statement, keeping the rows inserted before it. */
  function InsertAll(db: Db, rows: seq<SeedRow>): (r: Run)
    ensures r.db.tables == db.tables && r.db.meta == db.meta && r.db.tx == db.tx
    ensures db.cards.Keys <= r.db.cards.Keys && forall k | k in db.cards :: r.db.cards[k] == db.cards[k]
    ensures r.thrown.None? <==> Insertable(db.cards.Keys, rows)
    ensures r.thrown.None? ==> r.db.cards == db.cards + SeedCards(rows)
    ensures r.thrown.Some? ==> r.thrown.value == NotNullViolation || r.thrown.value == PrimaryKeyViolation
    decreases |rows|
  {
    if |rows| == 0 then Run(db, None)
    else
      InsertableStep(db.cards.Keys, rows);
      match InsertCard(db, rows[0])
      case Err(e) => Run(db, Some(e))
      case Ok(next) =>
        var r := InsertAll(next, rows[1..]);
        if r.thrown.Some? then r
        else
          UpdateThenUnion(db.cards, rows[0].id, ToCard(rows[0]), SeedCards(rows[1..]));
          r
  }

  /** The body of the `try`: load the seed, BEGIN, insert every record, insert the marker, COMMIT.
      `seed` is the loaded asset, or `None` when loading it threw. */
  function SeedAttempt(db: Db, seed: Option<seq<SeedRow>>): (r: Run)
    ensures r.db.tables == db.tables
    ensures r.thrown.None? <==>
              seed.Some? && !db.InTransaction() && SeedMarkerKey !in db.meta && Insertable(db.cards.Keys, seed.value)
    ensures r.thrown.None? ==> && !r.db.InTransaction()
                               && r.db.meta == db.meta[SeedMarkerKey := SeedMarkerValue]
                               && r.db.cards == db.cards + SeedCards(seed.value)
    ensures r.thrown.Some? && seed.Some? && !db.InTransaction() ==> r.db.tx == Some(Snapshot(db.tables, db.meta, db.cards))
    ensures r.thrown.Some? && (seed.None? || db.InTransaction()) ==> r.db == db
  {
    match seed
    case None => Run(db, Some(SeedUnavailable))
    case Some(rows) =>
      match Begin(db)
      case Err(e) => Run(db, Some(e))
      case Ok(begun) =>
        var inserted := InsertAll(begun, rows);
        if inserted.thrown.Some? then inserted
        else
          match InsertMeta(inserted.db, SeedMarkerKey, SeedMarkerValue)
          case Err(e) => Run(inserted.db, Some(e))
          case Ok(marked) =>
            match Commit(marked)
            case Err(e) => Run(marked, Some(e))
            case Ok(committed) => Run(committed, None)
  }

  /** The `catch` as written: ROLLBACK unconditionally. If ROLLBACK itself fails, that error
      escapes `initDb`. */
  function Recover(attempt: Run): (r: Run)
    ensures attempt.thrown.None? ==> r == attempt
    ensures attempt.thrown.Some? && attempt.db.InTransaction() ==>
              && r.thrown.None? && !r.db.InTransaction() && r.db.tables == attempt.db.tx.value.tables
              && r.db.meta == attempt.db.tx.value.meta && r.db.cards == attempt.db.tx.value.cards
    ensures attempt.thrown.Some? && !attempt.db.InTransaction() ==> r == Run(attempt.db, Some(NoActiveTransaction))
  {
    if attempt.thrown.None? then attempt
    else
      match Rollback(attempt.db)
      case Ok(restored) => Run(restored, None)
      case Err(e) => Run(attempt.db, Some(e))
  }

  /** `initDb` as written. `r.thrown` is the error its promise rejects with, if any.
      Called outside a transaction it leaves the schema in place and no transaction open.
      Called inside one with the marker absent, its CREATE TABLEs join that transaction and the
      catch's ROLLBACK undoes them along with everything else since the outer BEGIN. */
  function InitDb(db: Db, seed: Option<seq<SeedRow>>): (r: Run)
    ensures !db.InTransaction() ==> Schema <= r.db.tables && !r.db.InTransaction()
    ensures db.InTransaction() && SeedMarkerKey in db.meta ==> Schema <= r.db.tables && r.db.tx == db.tx
    ensures db.InTransaction() && SeedMarkerKey !in db.meta ==>
              && r.thrown.None? && !r.db.InTransaction()
              && r.db.tables == db.tx.value.tables && r.db.meta == db.tx.value.meta && r.db.cards == db.tx.value.cards
  {
    var ready := CreateSchema(db);
    if SeedMarkerKey in ready.meta then Run(ready, None)
    else Recover(SeedAttempt(ready, seed))
  }

  /** The `catch` with ROLLBACK issued only when a transaction is open. */
  function RecoverGuarded(attempt: Run): (r: Run)
    ensures r.thrown.None?
    ensures attempt.thrown.Some? && attempt.db.InTransaction() ==>
              && !r.db.InTransaction() && r.db.tables == attempt.db.tx.value.tables
              && r.db.meta == attempt.db.tx.value.meta && r.db.cards == attempt.db.tx.value.cards
    ensures attempt.thrown.None? || !attempt.db.InTransaction() ==> r.db == attempt.db
  {
    if attempt.thrown.None? || !attempt.db.InTransaction() then Run(attempt.db, None)
    else
      match Rollback(attempt.db)
      case Ok(restored) => Run(restored, None)
      case Err(_) => assert false; attempt
  }

  /** `initDb` with the guarded `catch`: every seeding failure is logged and swallowed. */
  function InitDbGuarded(db: Db, seed: Option<seq<SeedRow>>): (r: Run)
    ensures r.thrown.None?
    ensures !db.InTransaction() ==> Schema <= r.db.tables && !r.db.InTransaction()
    ensures !db.InTransaction() && SeedMarkerKey !in db.meta && seed.None? ==>
              r.db.meta == db.meta && r.db.cards == db.cards
  {
    var ready := CreateSchema(db);
    if SeedMarkerKey in ready.meta then Run(ready, None)
    else RecoverGuarded(SeedAttempt(ready, seed))
  }

  /* ---------------------------------------------------------------------------------------- */
  /* Properties of `initDb`                                                                   */
  /* ---------------------------------------------------------------------------------------- */

  /** Creating the schema twice is creating it once, and no row of `meta` or `cards` changes. */
  lemma CreateSchemaIdempotent(db: Db)
    ensures CreateSchema(CreateSchema(db)) == CreateSchema(db)
    ensures CreateSchema(db).meta == db.meta && CreateSchema(db).cards == db.cards
  {
  }

  /** The ids of a sequence of seed records. */
  function Ids(rows: seq<SeedRow>): set<int> {
    set i | 0 <= i < |rows| :: rows[i].id
  }

  /** Dropping the first record keeps a seed insertable into an empty table. */
  lemma InsertableTail(rows: seq<SeedRow>)
    requires |rows| > 0 && Insertable({}, rows)
    ensures Insertable({}, rows[1..]) && rows[0].id !in Ids(rows[1..])
    ensures Ids(rows) == {rows[0].id} + Ids(rows[1..])
  {
  }

  /** The seed rows land under their own ids: one `cards` key per record. */
  lemma {:induction false} SeedCardsKeys(rows: seq<SeedRow>)
    requires Insertable({}, rows)
    ensures SeedCards(rows).Keys == Ids(rows)
    ensures |SeedCards(rows)| == |rows|
  {
    if |rows| > 0 {
      InsertableTail(rows);
      var tail := SeedCards(rows[1..]);
      SeedCardsKeys(rows[1..]);
      assert rows[0].id !in tail;
      SingletonUnion(rows[0].id, ToCard(rows[0]), tail);
    }
  }

  /** Each record's row carries that record's word, meaning and normalised premium flag. */
  lemma {:induction false} SeedCardsValues(rows: seq<SeedRow>)
    requires Insertable({}, rows)
    ensures forall i | 0 <= i < |rows| :: rows[i].id in SeedCards(rows) && SeedCards(rows)[rows[i].id] == ToCard(rows[i])
  {
    if |rows| > 0 {
      var rest := rows[1..];
      InsertableTail(rows);
      SeedCardsKeys(rest);
      SeedCardsValues(rest);
      var m := SeedCards(rows);
      assert rows[0].id !in SeedCards(rest);
      SingletonUnion(rows[0].id, ToCard(rows[0]), SeedCards(rest));
      forall i | 0 <= i < |rows|
        ensures rows[i].id in m && m[rows[i].id] == ToCard(rows[i])
      {
        if i > 0 {
          assert rows[i] == rest[i - 1];
          assert rows[i].id != rows[0].id;
        }
      }
    }
  }

  /** A seed insertable over some keys is insertable over none. */
  lemma InsertableFromEmpty(existing: set<int>, rows: seq<SeedRow>)
    requires Insertable(existing, rows)
    ensures Insertable({}, rows)
  {
  }

  /** When `meta` already holds the marker, `initDb` only checks the schema: no row changes,
      the open transaction (if any) is left alone, and it completes normally. */
  lemma InitDbSkipsWhenSeeded(db: Db, seed: Option<seq<SeedRow>>)
    requires SeedMarkerKey in db.meta
    ensures InitDb(db, seed).thrown.None?
    ensures InitDb(db, seed).db.meta == db.meta && InitDb(db, seed).db.cards == db.cards
    ensures InitDb(db, seed).db.tx == db.tx
  {
  }

  /** A first run whose seed can be inserted adds exactly the seed rows (one per record, same id,
      word and meaning, premium flag 0 or 1), sets the marker to "1", and commits. */
  lemma InitDbSeedsCatalog(db: Db, rows: seq<SeedRow>)
    requires SeedMarkerKey !in db.meta && !db.InTransaction()
    requires Insertable(db.cards.Keys, rows)
    ensures InitDb(db, Some(rows)).thrown.None?
    ensures !InitDb(db, Some(rows)).db.InTransaction()
    ensures InitDb(db, Some(rows)).db.meta == db.meta[SeedMarkerKey := SeedMarkerValue]
    ensures InitDb(db, Some(rows)).db.cards.Keys == db.cards.Keys + Ids(rows)
    ensures forall k | k in db.cards :: InitDb(db, Some(rows)).db.cards[k] == db.cards[k]
    ensures forall i | 0 <= i < |rows| :: InitDb(db, Some(rows)).db.cards[rows[i].id] == ToCard(rows[i])
  {
    InsertableFromEmpty(db.cards.Keys, rows);
    SeedCardsValues(rows);
    SeedCardsKeys(rows);
  }

  /** Atomicity: a first run whose seed cannot be inserted (a record without word or meaning, an id
      repeated in the seed or already in `cards`) rolls back. `meta` and `cards` are exactly as before,
      the marker stays absent so the next call retries, and the failure does not escape. */
  lemma InitDbRollsBackOnFailure(db: Db, rows: seq<SeedRow>)
    requires SeedMarkerKey !in db.meta && !db.InTransaction()
    requires !Insertable(db.cards.Keys, rows)
    ensures InitDb(db, Some(rows)).thrown.None?
    ensures !InitDb(db, Some(rows)).db.InTransaction()
    ensures InitDb(db, Some(rows)).db.meta == db.meta && InitDb(db, Some(rows)).db.cards == db.cards
    ensures SeedMarkerKey !in InitDb(db, Some(rows)).db.meta
  {
  }

  /** The primary key on `cards.id`: a seed that repeats an id never reaches COMMIT. */
  lemma RepeatedSeedIdRollsBack(db: Db, rows: seq<SeedRow>, i: int, j: int)
    requires SeedMarkerKey !in db.meta && !db.InTransaction()
    requires 0 <= i < j < |rows| && rows[i].id == rows[j].id
    ensures InitDb(db, Some(rows)).db.meta == db.meta && InitDb(db, Some(rows)).db.cards == db.cards
  {
  }

  /** The primary key on `cards.id`: a seed id already present in `cards` never reaches COMMIT. */
  lemma ExistingSeedIdRollsBack(db: Db, rows: seq<SeedRow>, i: int)
    requires SeedMarkerKey !in db.meta && !db.InTransaction()
    requires 0 <= i < |rows| && rows[i].id in db.cards
    ensures InitDb(db, Some(rows)).db.meta == db.meta && InitDb(db, Some(rows)).db.cards == db.cards
  {
  }

  /** As written, a failure while loading the asset reaches ROLLBACK with no transaction open;
      ROLLBACK then fails and its error escapes `initDb`. Nothing changes in the database. */
  lemma InitDbLoadFailureEscapes(db: Db)
    requires SeedMarkerKey !in db.meta && !db.InTransaction()
    ensures InitDb(db, None).thrown == Some(NoActiveTransaction)
    ensures InitDb(db, None).db.meta == db.meta && InitDb(db, None).db.cards == db.cards
  {
  }

  /** Called inside an open transaction on an unseeded database, `initDb` rolls that transaction
      back, taking the tables it just created with it. */
  lemma InitDbInsideTransactionUndoesSchema()
    ensures var inside := Db({}, map[], map[], Some(Snapshot({}, map[], map[])));
            InitDb(inside, Some([])) == Run(Db({}, map[], map[], None), None)
  {
  }

  /** With the guarded `catch`, no seeding failure escapes, and the database ends in the same
      state as with the catch as written, for every input. */
  lemma InitDbGuardedSwallowsFailures(db: Db, seed: Option<seq<SeedRow>>)
    ensures InitDbGuarded(db, seed).thrown.None?
    ensures InitDbGuarded(db, seed).db == InitDb(db, seed).db
  {
  }

  /** Idempotence: outside a transaction, running `initDb` on its own result changes nothing
      and ends the same way. */
  lemma InitDbIdempotent(db: Db, seed: Option<seq<SeedRow>>)
    requires !db.InTransaction()
    ensures InitDb(InitDb(db, seed).db, seed) == InitDb(db, seed)
  {
  }

  /** The marker is written after every card, in the same transaction, so a present marker
      means every seed record is stored. */
  predicate MarkerSound(db: Db, rows: seq<SeedRow>) {
    SeedMarkerKey in db.meta ==>
      forall i | 0 <= i < |rows| :: Complete(rows[i]) && rows[i].id in db.cards && db.cards[rows[i].id] == ToCard(rows[i])
  }

  lemma InitDbKeepsMarkerSound(db: Db, rows: seq<SeedRow>)
    requires !db.InTransaction() && MarkerSound(db, rows)
    ensures MarkerSound(InitDb(db, Some(rows)).db, rows)
  {
    if SeedMarkerKey !in db.meta {
      if Insertable(db.cards.Keys, rows) {
        InitDbSeedsCatalog(db, rows);
      } else {
        InitDbRollsBackOnFailure(db, rows);
      }
    }
  }

  /** Every `cards` row sits under its own id and has `is_premium` 0 or 1. */
  predicate CardsWellFormed(cards: map<int, Card>) {
    forall k | k in cards :: cards[k].id == k && (cards[k].isPremium == 0 || cards[k].isPremium == 1)
  }

  lemma InitDbKeepsCardsWellFormed(db: Db, seed: Option<seq<SeedRow>>)
    requires !db.InTransaction() && CardsWellFormed(db.cards)
    ensures CardsWellFormed(InitDb(db, seed).db.cards)
  {
    if SeedMarkerKey !in db.meta && seed.Some? {
      var rows := seed.value;
      if Insertable(db.cards.Keys, rows) {
        InitDbSeedsCatalog(db, rows);
        var cards := InitDb(db, seed).db.cards;
        forall k | k in cards
          ensures cards[k].id == k && (cards[k].isPremium == 0 || cards[k].isPremium == 1)
        {
          if k !in db.cards {
            var i :| 0 <= i < |rows| && rows[i].id == k;
            assert cards[k] == ToCard(rows[i]);
          }
        }
      } else {
        InitDbRollsBackOnFailure(db, rows);
      }
    }
  }
}

=== FILE: js_text.dfy ===
/** The two JavaScript conversions between integers and strings that the settings screen relies on:
    `String(n)` when it stores an hour and `Number(s)` when it reads one back. */
module JsText {
  import opened Wrappers

  /** A JavaScript number as far as this model needs one: an integer, or NaN. */
  datatype JsNumber = NaN | Num(n: int)

  predicate IsDigit(c: char) {
    '0' <= c <= '9'
  }

  function DigitValue(c: char): (d: nat)
    requires IsDigit(c)
    ensures d < 10
  {
    (c as int) - ('0' as int)
  }

  function DigitChar(d: nat): (c: char)
    requires d < 10
    ensures IsDigit(c) && DigitValue(c) == d
  {
    (('0' as int) + d) as char
  }

  predicate AllDigits(s: string) {
    forall i | 0 <= i < |s| :: IsDigit(s[i])
  }

  /** The value of a string of decimal digits, most significant first; the empty string is 0. */
  function DigitsValue(s: string): nat
    requires AllDigits(s)
  {
    if |s| == 0 then 0 else DigitsValue(s[..|s| - 1]) * 10 + DigitValue(s[|s| - 1])
  }

  /** The shortest decimal spelling of a natural number: no leading zero, except for 0 itself,
      which is the single digit `0`. */
  function NatToString(n: nat): (s: string)
    ensures |s| > 0 && AllDigits(s)
    ensures DigitsValue(s) == n
    ensures s[0] == '0' <==> n == 0
    ensures |s| == 1 || s[0] != '0'
  {
    if n < 10 then [DigitChar(n)]
    else
      var s := NatToString(n / 10) + [DigitChar(n % 10)];
      assert s[..|s| - 1] == NatToString(n / 10);
      s
  }

  /** `String(n)` for an integer `n`: a minus sign for negatives, then the decimal digits. */
  function IntToString(n: int): (s: string)
    ensures n >= 0 ==> |s| > 0 && AllDigits(s)
    ensures n < 0 ==> |s| > 1 && s[0] == '-' && AllDigits(s[1..])
    ensures n >= 0 ==> |s| == 1 || s[0] != '0'
    ensures n < 0 ==> s[1] != '0'
  {
    if n < 0 then "-" + NatToString(-n) else NatToString(n)
  }

  /** `Number(s)` for the strings this model admits: a (possibly empty) run of decimal digits,
      optionally after one minus sign. Every other string is NaN here. The empty string is 0,
      as in JavaScript. */
  function NumberOf(s: string): (r: JsNumber)
    ensures s == "" ==> r == Num(0)
    ensures r.Num? && r.n < 0 ==> s[0] == '-'
    ensures forall k | 0 <= k < |s| :: !IsDigit(s[k]) && (k > 0 || s[k] != '-') ==> r == NaN
  {
    if AllDigits(s) then Num(DigitsValue(s))
    else if |s| >= 2 && s[0] == '-' && AllDigits(s[1..]) then Num(-(DigitsValue(s[1..]) as int))
    else NaN
  }

  /** `Number(v)` where `v` may be `null`, as a missing storage key is: `Number(null)` is 0. */
  function NumberOfNullable(v: Option<string>): (r: JsNumber)
    ensures v.None? ==> r == Num(0)
    ensures v.Some? ==> r == NumberOf(v.value)
  {
    match v
    case None => Num(0)
    case Some(s) => NumberOf(s)
  }

  /** Reading back what `String` wrote gives the integer that was written, for every integer. */
  lemma IntToStringRoundTrip(n: int)
    ensures NumberOf(IntToString(n)) == Num(n)
  {
    if n < 0 {
      var s := IntToString(n);
      assert s[1..] == NatToString(-n);
      assert !IsDigit(s[0]);
    }
  }
}

=== FILE: settings.dfy ===
/** The settings screen's preferences: three values kept both in component state and, as
    strings, in the device's key-value storage. Storage I/O becomes a map held beside the state. */
module Settings {
  import opened Wrappers
  import opened JsText

  /** The storage keys. */
  const NotifyOnKey: string := "notifyOn"
  const NotifyHourKey: string := "notifyHour"
  const ThemeDarkKey: string := "themeDark"

  /** The reminder hour the screen starts with and falls back to. */
  const DefaultHour: int := 9
  const HoursPerDay: int := 24

  datatype Prefs = Prefs(notifyOn: bool, notifyHour: int, themeDark: bool)

  /** The state before loading: reminders off, 9:00, light theme. */
  const InitialPrefs: Prefs := Prefs(false, DefaultHour, false)

  /** The in-memory preferences and the stored strings. */
  datatype Screen = Screen(prefs: Prefs, stored: map<string, string>)

  function Lookup(stored: map<string, string>, key: string): Option<string> {
    if key in stored then Some(stored[key]) else None
  }

  /** JavaScript's `a % b` for a positive divisor: truncating division, so the remainder takes
      the sign of `a`. */
  function JsRem(a: int, b: int): (r: int)
    requires b > 0
    ensures -b < r < b
    ensures a >= 0 ==> r == a % b
    ensures a < 0 ==> r <= 0
  {
    if a >= 0 then a % b else -((-a) % b)
  }

  /** Truncation is symmetric: negating the dividend negates the remainder. With the clause for
      `a >= 0` this fixes the value for every dividend, e.g. `-7 % 24 == -7`. */
  lemma JsRemOdd(a: int, b: int)
    requires b > 0
    ensures JsRem(-a, b) == -JsRem(a, b)
  {
  }

  /** The hour `changeHour(delta)` moves to: `(hour + delta + 24) % 24`. Whenever that sum is
      not negative (every hour in 0..23 with a delta of at least -24, so both buttons), the
      result is the hour of the day that is `hour + delta` modulo 24. */
  function NextHour(hour: int, delta: int): (r: int)
    ensures hour + delta + HoursPerDay >= 0 ==> 0 <= r < HoursPerDay && r == (hour + delta) % HoursPerDay
    ensures hour + delta + HoursPerDay < 0 ==> -HoursPerDay < r <= 0
    ensures (r - (hour + delta)) % HoursPerDay == 0
  {
    JsRem(hour + delta + HoursPerDay, HoursPerDay)
  }

  /** The "+" button after 23:00 gives 0:00 and the "-" button before 0:00 gives 23:00. */
  lemma NextHourWraps()
    ensures NextHour(23, 1) == 0
    ensures NextHour(0, -1) == 23
  {
  }

  /** One step up and one step down cancel, in either order, for every hour of the day. */
  lemma NextHourStepsCancel(hour: int)
    requires 0 <= hour < HoursPerDay
    ensures NextHour(NextHour(hour, 1), -1) == hour
    ensures NextHour(NextHour(hour, -1), 1) == hour
  {
  }

  /** How a switch is stored: `on ? '1' : '0'`. */
  function EncodeFlag(on: bool): (s: string)
    ensures s == "1" || s == "0"
    ensures DecodeFlag(Some(s)) == on
  {
    if on then "1" else "0"
  }

  /** How a switch is read back: `value === '1'`. */
  function DecodeFlag(v: Option<string>): (on: bool)
    ensures v.None? || v == Some("0") ==> !on
    ensures on ==> v == Some("1")
  {
    v == Some("1")
  }

  /** A stored switch reads back as written; a missing key or any other string reads as off. */
  lemma FlagCodec(on: bool, v: Option<string>)
    ensures DecodeFlag(Some(EncodeFlag(on))) == on
    ensures v != Some("1") ==> !DecodeFlag(v)
  {
  }

  /** How the hour is read back: `Number(value) || 9`. NaN and 0 are falsy, so both give 9. */
  function DecodeHour(v: Option<string>): (h: int)
    ensures h != 0
    ensures v.None? ==> h == DefaultHour
  {
    match NumberOfNullable(v)
    case NaN => DefaultHour
    case Num(n) => if n == 0 then DefaultHour else n
  }

  /** The load in the mount effect: all three preferences from storage. */
  function Load(stored: map<string, string>): (p: Prefs)
    ensures p.notifyHour != 0
    ensures NotifyHourKey !in stored ==> p.notifyHour == DefaultHour
    ensures NotifyOnKey !in stored ==> !p.notifyOn
    ensures ThemeDarkKey !in stored ==> !p.themeDark
    ensures stored == map[] ==> p == InitialPrefs
  {
    Prefs(DecodeFlag(Lookup(stored, NotifyOnKey)),
          DecodeHour(Lookup(stored, NotifyHourKey)),
          DecodeFlag(Lookup(stored, ThemeDarkKey)))
  }

  /** The mount effect: replace the in-memory preferences by what storage holds. */
  function Hydrate(s: Screen): (r: Screen)
    ensures r.stored == s.stored
    ensures InSync(r)
  {
    s.(prefs := Load(s.stored))
  }

  /** A fresh install (nothing stored) loads exactly the initial state. */
  lemma FreshInstallLoadsDefaults(s: Screen)
    requires s.prefs == InitialPrefs && s.stored == map[]
    ensures Hydrate(s) == s
  {
  }

  /** `toggleNotify(on)`: the state and the stored string change together; nothing else changes. */
  function ToggleNotify(s: Screen, on: bool): (r: Screen)
    ensures r.prefs == s.prefs.(notifyOn := on)
    ensures DecodeFlag(Lookup(r.stored, NotifyOnKey)) == on
    ensures forall k | k in s.stored && k != NotifyOnKey :: k in r.stored && r.stored[k] == s.stored[k]
    ensures forall k :: k in r.stored <==> k in s.stored || k == NotifyOnKey
    ensures NotifyOnKey in r.stored && r.stored[NotifyOnKey] == EncodeFlag(on)
  {
    Screen(s.prefs.(notifyOn := on), s.stored[NotifyOnKey := EncodeFlag(on)])
  }

  /** `toggleTheme(on)`: the state and the stored string change together; nothing else changes. */
  function ToggleTheme(s: Screen, on: bool): (r: Screen)
    ensures r.prefs == s.prefs.(themeDark := on)
    ensures DecodeFlag(Lookup(r.stored, ThemeDarkKey)) == on
    ensures forall k | k in s.stored && k != ThemeDarkKey :: k in r.stored && r.stored[k] == s.stored[k]
    ensures forall k :: k in r.stored <==> k in s.stored || k == ThemeDarkKey
    ensures ThemeDarkKey in r.stored && r.stored[ThemeDarkKey] == EncodeFlag(on)
  {
    Screen(s.prefs.(themeDark := on), s.stored[ThemeDarkKey := EncodeFlag(on)])
  }

  /** `changeHour(delta)`: the state and the stored string get the same hour (`String(next)`
      parses back to it); the switches and the other keys do not change. */
  function ChangeHour(s: Screen, delta: int): (r: Screen)
    ensures r.prefs == s.prefs.(notifyHour := NextHour(s.prefs.notifyHour, delta))
    ensures NumberOfNullable(Lookup(r.stored, NotifyHourKey)) == Num(r.prefs.notifyHour)
    ensures forall k | k in s.stored && k != NotifyHourKey :: k in r.stored && r.stored[k] == s.stored[k]
    ensures forall k :: k in r.stored <==> k in s.stored || k == NotifyHourKey
    ensures NotifyHourKey in r.stored && r.stored[NotifyHourKey] == IntToString(r.prefs.notifyHour)
  {
    var next := NextHour(s.prefs.notifyHour, delta);
    IntToStringRoundTrip(next);
    Screen(s.prefs.(notifyHour := next), s.stored[NotifyHourKey := IntToString(next)])
  }

  /** Reloading would show what the screen shows. */
  predicate InSync(s: Screen) {
    Load(s.stored) == s.prefs
  }

  /** A stored hour other than 0 reads back as itself (so every hour 1..23 survives a reload). */
  lemma HourRoundTrip(hour: int)
    requires hour != 0
    ensures DecodeHour(Some(IntToString(hour))) == hour
  {
    IntToStringRoundTrip(hour);
  }

  /** The stored hour 0 (midnight) reads back as 9. */
  lemma MidnightReloadsAsNine()
    ensures DecodeHour(Some(IntToString(0))) == DefaultHour
  {
  }

  /** The switches never put the screen out of step with storage. */
  lemma TogglesKeepInSync(s: Screen, on: bool)
    requires InSync(s)
    ensures InSync(ToggleNotify(s, on)) && InSync(ToggleTheme(s, on))
  {
  }

  /** From an in-step screen, `changeHour` stays in step exactly when it does not land on 0:00. */
  lemma ChangeHourInSyncIff(s: Screen, delta: int)
    requires InSync(s)
    ensures InSync(ChangeHour(s, delta)) <==> NextHour(s.prefs.notifyHour, delta) != 0
  {
  }

  /** The concrete case: at 23:00, "+" shows 0:00 but a reload shows 9:00. */
  lemma MidnightStepLosesHour()
    ensures var s := Screen(Prefs(false, 23, false), map[NotifyHourKey := "23"]);
            InSync(s) && ChangeHour(s, 1).prefs.notifyHour == 0
            && Load(ChangeHour(s, 1).stored).notifyHour == DefaultHour
  {
    var s := Screen(Prefs(false, 23, false), map[NotifyHourKey := "23"]);
    assert IntToString(23) == "23";
    HourRoundTrip(23);
    MidnightReloadsAsNine();
  }

  /* ---------------------------------------------------------------------------------------- */
  /* The hour read back with 9 only for a missing or unreadable value                           */
  /* ---------------------------------------------------------------------------------------- */

  /** The hour read back as evidently intended: 9 when the key is missing or the value is not a
      number, otherwise the stored number, 0 included. */
  function DecodeHourCorrected(v: Option<string>): (h: int)
    ensures v.None? ==> h == DefaultHour
  {
    match v
    case None => DefaultHour
    case Some(text) =>
      match NumberOf(text)
      case NaN => DefaultHour
      case Num(n) => n
  }

  function LoadCorrected(stored: map<string, string>): Prefs {
    Prefs(DecodeFlag(Lookup(stored, NotifyOnKey)),
          DecodeHourCorrected(Lookup(stored, NotifyHourKey)),
          DecodeFlag(Lookup(stored, ThemeDarkKey)))
  }

  predicate InSyncCorrected(s: Screen) {
    LoadCorrected(s.stored) == s.prefs
  }

  /** Every stored hour, midnight included, reads back as itself. */
  lemma HourRoundTripCorrected(hour: int)
    ensures DecodeHourCorrected(Some(IntToString(hour))) == hour
  {
    IntToStringRoundTrip(hour);
  }

  /** A fresh install still loads the initial state. */
  lemma FreshInstallLoadsDefaultsCorrected()
    ensures LoadCorrected(map[]) == InitialPrefs
  {
  }

  /** With the corrected read-back, no operation of the screen puts it out of step with storage. */
  lemma OperationsKeepInSyncCorrected(s: Screen, on: bool, delta: int)
    requires InSyncCorrected(s)
    ensures InSyncCorrected(ToggleNotify(s, on))
    ensures InSyncCorrected(ToggleTheme(s, on))
    ensures InSyncCorrected(ChangeHour(s, delta))
  {
  }
}

=== FILE: wrappers.dfy ===
/** Optional values and success/failure results shared by the catalog store and the settings screen. */
module Wrappers {

  /** A value that may be missing: a SQL NULL, a JSON field that is absent, a storage key never written. */
  datatype Option<+T> = None | Some(value: T)

  /** The outcome of one statement: the new state, or the error the statement raised. */
  datatype Result<+T, +E> = Ok(value: T) | Err(error: E)
}
